=== FILE: README.md ===
# phc: unparser text primitives and SSA renaming bookkeeping

A Dafny model of two small parts of phc, the PHP compiler.

**The PHP unparser's text-level primitives** (`src/process_ast/PHP_unparser.cpp`):
- the encoder for the bodies of double-quoted string literals (`echo_escaped`);
- the three ways a string token is written back (`children_string`): magic
  constants as they are, singly quoted literals with only `'` escaped, and
  everything else through `echo_escaped`;
- the layout state machine (`indent_level`, `at_start_of_line`) behind
  `newline`, `output_tabs`, `empty_line`, `inc_indent` and `dec_indent`, and
  the `echo` and `echo_nl` calls that go through it;
- the rule that drops the brackets from calls of the builtins on `%STDLIB%`
  (`children_method_invocation`);
- the rule that declares an attribute with `var ` exactly when it has no
  modifier (`children_attr_mod`).

Output is a sequence of bytes (`Text.Bytes`; a byte is a character with a
code point of at most 255). Every unparser operation takes the layout state
before the call and returns a `Layout.Step`: the state after the call and
the bytes it wrote. The tab string is a parameter. Whether the platform's
plain `char` is signed is a parameter too (`Escape.CharSign`). The `c < 32`
test in `echo_escaped` reads differently under the two choices. With a
signed `char`, bytes 0x80 to 0xFF are negative and are written as `\xHH`.
With an unsigned `char` they are copied unchanged. Every property is proved
for both readings.

Each encoder has a partner decoder:
- `Escape.Unescape` is PHP's reading of the escapes `echo_escaped` writes
  (`Escape.EscapeBytesEmitted` proves that the escaped text holds no other
  escape and no bare `$` or `"`, so PHP's further escapes and interpolation
  never come into play);
- `StringLiteral.SingleQuotedValue` undoes the single-quote escaping;
- `StringLiteral.PhpSingleQuotedValue` is PHP's decoding of a singly quoted
  body that closes at its end, and `StringLiteral.BareQuote` is where PHP's
  scanner ends a singly quoted literal;
- `Modifiers.ReadModifiers` parses the modifier keywords back.

The round trips between the encoders and these decoders are proved; the one
through PHP's reading of singly quoted literals only for values without a
backslash.
For a value without a backslash, PHP's scanner ends the singly quoted
literal exactly at the quote echoed after the body, and PHP decodes the
value back. A backslash of the
value is copied as it is, so PHP may pair it with the next byte. The value
`\'` is written `'\\''`, and the second quote ends the literal early. The
value `\` is written `'\'`, and PHP pairs that backslash with the closing
quote. The value `\\` is written `'\\'` and read back as one backslash.

**SSA renaming bookkeeping and the dominance maps** (`src/optimize/SSA.h`).
The model states what the header's declarations and comments fix; the
algorithms in `SSA.cpp` are not modelled:
- the renaming state: one counter shared by all variables, holding the
  version of the next SSA name, plus a stack of versions per variable name,
  with push, read, pop and new-name operations;
- a walk down the dominator tree in which each block gives its definitions
  new names, descends, and then pops once per definition;
- the three dominance maps, with the immediate-dominated map as the inverse
  of the immediate-dominator map, and the frontier read, test and insert.

## Model

| member | source | states |
|---|---|---|
| `Layout.Newline` | src/process_ast/PHP_unparser.cpp:98-105 | afterwards the output is at the start of a line at the same indentation; a single line break is written exactly when it was not at the start of one, nothing otherwise |
| `Layout.NewlineIdempotent` | src/process_ast/PHP_unparser.cpp:98-105 | a second `newline` writes nothing and leaves the state alone, so two in a row write at most one line break |
| `Layout.OutputTabs` | src/process_ast/PHP_unparser.cpp:107-114 | at the start of a line it writes `indent_level` copies of the tab string back to back, copy `k` at offset `k` times the tab's length (none for a level of zero or below), in mid-line nothing; afterwards the output is never at the start of a line |
| `Text.RepeatCopies` | src/process_ast/PHP_unparser.cpp:109-111 | `n` repetitions of a string hold a whole copy of it at each offset `k` times its length, for every `k` below `n` |
| `Layout.OutputTabsOncePerLine` | src/process_ast/PHP_unparser.cpp:107-114 | a second `output_tabs` on the same line writes nothing |
| `Layout.EmptyLine` | src/process_ast/PHP_unparser.cpp:116-120 | always writes exactly one line break and leaves the output at the start of a line |
| `Layout.IncIndent` | src/process_ast/PHP_unparser.cpp:86-90 | the level goes up by one, the output ends at the start of a line, and it writes what `newline` would |
| `Layout.DecIndent` | src/process_ast/PHP_unparser.cpp:92-96 | the level goes down by one, the output ends at the start of a line, and it writes what `newline` would |
| `Layout.IncThenDecRestores` | src/process_ast/PHP_unparser.cpp:86-96 | `inc_indent` then `dec_indent` restores the indentation level and together has exactly the effect of one `newline` |
| `Layout.Echo` | src/process_ast/PHP_unparser.cpp:31-35 | writes the line's indentation (nothing in mid-line) followed by the string, keeps the level, and leaves the output in mid-line |
| `Layout.EchoNl` | src/process_ast/PHP_unparser.cpp:37-41 | writes the line's indentation, the string and one line break, and ends at the start of a line |
| `Layout.EchoAllIndentsOnce` | src/process_ast/PHP_unparser.cpp:31-35 | a run of echo calls indents the line at most once: the output is the indentation followed by the pieces back to back |
| `Layout.OnlyEmptyLineMakesBlankLines` | src/process_ast/PHP_unparser.cpp:98-120 | from a state that agrees with the output so far, calls of `newline`, `inc_indent`, `dec_indent` and `echo` of non-empty text without line breaks never write two line breaks in a row; the state keeps agreeing with the output, at the start of a line exactly when the output is empty or ends in a line break |
| `Layout.FreshUnparserWritesNoBlankLine` | src/process_ast/PHP_unparser.cpp:122-125 | an unparser starting at indentation zero and at the start of a line writes no blank line through such calls |
| `Escape.HexEscape` | src/process_ast/PHP_unparser.cpp:75-76 | a control byte becomes `\x` and exactly two upper-case hex digits |
| `Escape.EscapeByte` | src/process_ast/PHP_unparser.cpp:56-82 | line feed, carriage return, tab, backslash, dollar and double quote become two bytes starting with a backslash; other control bytes (under the chosen `char` reading) become four; every other byte is copied as itself; no output byte is a control byte |
| `Escape.EscapeBytes` | src/process_ast/PHP_unparser.cpp:53-83 | the escaped text is between one and four times as long as the input and contains no raw control byte |
| `Escape.EscapeBytesAppend` | src/process_ast/PHP_unparser.cpp:54-83 | escaping works byte by byte: the escape of `s + t` is the escape of `s` followed by the escape of `t` |
| `Escape.EscapeKeepsPlainBytes` | src/process_ast/PHP_unparser.cpp:79-80 | a string of printable bytes outside the special set is written unchanged |
| `Escape.UnescapeEscapeByte` | src/process_ast/PHP_unparser.cpp:58-77 | PHP reads each escape back as the byte it encodes, whatever follows it |
| `Escape.EscapeBytesEmitted` | src/process_ast/PHP_unparser.cpp:53-83 | the escaped text consists only of plain bytes other than backslash, `$` and `"`, the six two-byte escapes and `\x` with two hex digits: no bare `$` or `"`, and no backslash starting any other escape |
| `Escape.EscapeRoundTrip` | src/process_ast/PHP_unparser.cpp:49-84 | PHP's reading of the escaped text is exactly the original bytes |
| `Escape.EchoEscaped` | src/process_ast/PHP_unparser.cpp:49-84 | writes the line's indentation, then the escaped bytes; that text holds only the escapes `echo_escaped` emits and no raw control byte, reads back as the input string, and leaves the output in mid-line |
| `StringLiteral.SingleQuotedBody` | src/process_ast/PHP_unparser.cpp:1029-1035 | every single quote in the body stands right behind a backslash; the body is longer than the value by exactly its number of single quotes, and a value without quotes is written as it is |
| `StringLiteral.SingleQuotedRoundTrip` | src/process_ast/PHP_unparser.cpp:1028-1035 | escaping only `'` as `\'` loses nothing: the body decodes back to the value |
| `StringLiteral.PhpReadsBackslashFreeBody` | src/process_ast/PHP_unparser.cpp:1028-1035 | for a value without a backslash, PHP's reading of the singly quoted body is the value |
| `StringLiteral.BackslashFreeBodyHasNoBareQuote` | src/process_ast/PHP_unparser.cpp:1028-1035 | for a value without a backslash the body holds no quote PHP's scanner would stop at |
| `StringLiteral.BackslashFreeLiteralClosesAtEnd` | src/process_ast/PHP_unparser.cpp:1028-1036 | for a value without a backslash PHP's scanner ends the literal exactly at the quote echoed after the body |
| `StringLiteral.BackslashQuoteClosesEarly` | src/process_ast/PHP_unparser.cpp:1029-1035 | the value backslash-quote is written as two backslashes and a quote, where the scanner ends the literal at the third byte of the body |
| `StringLiteral.OneBackslashHidesClosingQuote` | src/process_ast/PHP_unparser.cpp:1029-1036 | the value of one backslash is written with that backslash before the closing quote, and the scanner does not stop at that quote |
| `StringLiteral.TwoBackslashesReadAsOne` | src/process_ast/PHP_unparser.cpp:1029-1036 | the value of two backslashes is written as it is; the literal ends at its closing quote and PHP decodes it as one backslash |
| `StringLiteral.TrailingBackslashMeetsClosingQuote` | src/process_ast/PHP_unparser.cpp:1031-1036 | a value ending in a backslash yields a body ending in a backslash, which then stands right before the closing quote |
| `StringLiteral.Literal` | src/process_ast/PHP_unparser.cpp:1012-1044 | the four magic constants are written as they are; any other singly quoted value is written between `'` quotes with a body that decodes back to it; every quote inside a singly quoted literal stands behind a backslash; anything else between `"` quotes with a body PHP reads back as it, holding only the escapes `echo_escaped` writes |
| `StringLiteral.ChildrenString` | src/process_ast/PHP_unparser.cpp:1010-1045 | the echo calls of `children_string` write the line's indentation, if any, followed by the literal, and leave the output in mid-line |
| `Modifiers.ChildrenAttrMod` | src/process_ast/PHP_unparser.cpp:262-276 | the echo calls write the line's indentation, if any, followed by the modifier text |
| `Modifiers.VarIffNoModifier` | src/process_ast/PHP_unparser.cpp:270-275 | `var ` is written exactly when none of public, protected, private, static and const is set, and then it is the whole text |
| `Modifiers.ModifierTextRoundTrip` | src/process_ast/PHP_unparser.cpp:264-275 | the modifier text parses back to exactly the modifiers it was written from |
| `Invocation.ChildrenMethodInvocation` | src/process_ast/PHP_unparser.cpp:754-808 | the echo calls write the line's indentation, if any, followed by the call text |
| `Invocation.CallTextParts` | src/process_ast/PHP_unparser.cpp:794-807 | a call is `prefix name(args)` when brackets are used and `prefix name args` otherwise |
| `Invocation.StdlibBrackets` | src/process_ast/PHP_unparser.cpp:781-807 | a call on `%STDLIB%` is written `name args` if and only if the name is echo, print, include, include_once, require, require_once or use, and `name(args)` if and only if it is not |
| `Invocation.OtherCallsBracketed` | src/process_ast/PHP_unparser.cpp:781-807 | every other call, on any target, is written with brackets around its arguments |
| `Invocation.PseudoClassNotWritten` | src/process_ast/PHP_unparser.cpp:761-767 | a call on a class whose name starts with `%` starts with the method name: the pseudo-class is not written |
| `SsaRenaming.Push` | src/optimize/SSA.h:83 | the version becomes the top of the variable's stack; the counter and every other stack are unchanged |
| `SsaRenaming.Read` | src/optimize/SSA.h:84 | gives the top of the variable's stack, or nothing exactly when the stack is empty |
| `SsaRenaming.Pop` | src/optimize/SSA.h:85 | drops the top of the variable's stack and changes no other stack; fails exactly on an empty stack |
| `SsaRenaming.NewName` | src/optimize/SSA.h:87-88 | the variable gets the current counter as its version, which a read then returns, and the counter moves on by one; other variables are untouched |
| `SsaRenaming.ReadAfterPush` | src/optimize/SSA.h:83-84 | after pushing a version, reading the variable gives that version |
| `SsaRenaming.PopAfterPush` | src/optimize/SSA.h:54-58 | a pop after a push restores every stack, so a read reveals the version of the previous level |
| `SsaRenaming.OtherVariablesUntouched` | src/optimize/SSA.h:69 | push, pop and new name on one variable do not change what any other variable reads |
| `SsaRenaming.NewNameIsFresh` | src/optimize/SSA.h:55-56 | every version on a stack is below the counter, which a new name keeps true; so the new version is on no stack before it is made |
| `SsaRenaming.NewNames` | src/optimize/SSA.h:63-68 | new names for a sequence of variables get consecutive counter values in order, whatever the variables; the counter advances by their number |
| `SsaRenaming.PopsUndoNewNames` | src/optimize/SSA.h:54-58 | popping once per definition, last one first, restores every stack as it was before the block's new names |
| `SsaRenaming.RenameVars` | src/optimize/SSA.h:54-58 | the walk down the dominator tree never pops an empty stack, restores every stack when it returns, advances the counter by the number of definitions below the block, and hands out consecutive versions |
| `SsaRenaming.Start` | src/optimize/SSA.h:68-72 | a renaming starts with the given counter and every variable's stack empty |
| `SsaRenaming.RenameFromStart` | src/optimize/SSA.h:54-58 | from the starting state no version is on a stack yet, and after a walk every stack is empty again, with the counter moved on by the number of definitions in the tree |
| `SsaRenaming.RenamedVersionsDistinct` | src/optimize/SSA.h:63-67 | no two definitions in a renaming walk share a version |
| `Dominance.Invert` | src/optimize/SSA.h:18-22 | the map from each block to the blocks it immediately dominates is the exact inverse of the immediate-dominator map |
| `Dominance.ImmediateDominator` | src/optimize/SSA.h:46 | gives the recorded immediate dominator of a block, and nothing exactly when the block has none |
| `Dominance.BlocksDominatedBy` | src/optimize/SSA.h:47 | empty for a block with no entry; when the maps are inverse, lists exactly the blocks whose immediate dominator it is |
| `Dominance.Frontier` | src/optimize/SSA.h:42 | the recorded frontier of a block, empty when none is recorded |
| `Dominance.IsInFrontier` | src/optimize/SSA.h:44 | holds exactly when the block occurs in the recorded frontier, and only for a block that has one |
| `Dominance.DominatedIffImmediateDominator` | src/optimize/SSA.h:46-47 | when the maps are inverse, `v` is among the blocks dominated by `b` exactly when `b` is the immediate dominator of `v` |
| `Dominance.AddToFrontier` | src/optimize/SSA.h:43 | adds the block to one frontier as a set member, keeping it free of repeats; other frontiers and both dominator maps are unchanged |
| `Dominance.AddThenIsIn` | src/optimize/SSA.h:43-44 | after adding a block to a frontier, the membership test on that frontier holds |
| `Dominance.AddIdempotent` | src/optimize/SSA.h:43 | adding the same block twice is the same as adding it once |

## Left out

- The tree walk over all AST node kinds (`children_if`, `children_class_def`, …). It needs the AST class hierarchy and `PHP_unparser.h`, which are not part of this model. The target, method name and argument list of a call are given as the text the walk echoes for them.
- The output stream, `iomanip` formatting state and the command-line options. Output is a byte sequence and the tab string is a parameter.
- The line-breaking heuristics driven by `concat_counter` and `array_elem_counter`, and the `in_if_expression`/`in_method_invocation` flags.
- Comment placement (`pre_commented_node`, `post_commented_node`) and the lookups of node attributes. Whether a string token is singly quoted is given as a boolean.
- A call whose target is missing. The model takes a class name or an already rendered target.
- Layout.State: `indent_level` is an unbounded integer. `dec_indent` may take it below zero, as in the source, and then `output_tabs` writes nothing.
- The computation of dominators and dominance frontiers, the reverse-dominance instance, `is_bb_dominated_by`, `dump` and `debug_var_stacks`. Their bodies are not part of this model.
- The CFG, basic blocks and `MIR::VARIABLE_NAME`. A block is its vertex number and a variable is its name.
- SsaRenaming.RenameVars: models only the version bookkeeping of the walk. Rewriting uses, filling phi operands and the order of statements are not modelled, because the walk's body is not part of this model.
- SsaRenaming.NewName: the body of `create_new_ssa_name` is not part of this model. It follows the new-name step of Cooper and Torczon, section 9.3.4, which the header cites: take the counter, advance it, push the version.
- SsaRenaming.Read: reading an empty stack is undefined behaviour for `std::stack`. It is modelled as `None`.
- SsaRenaming.Pop: popping an empty stack is undefined behaviour for `std::stack`. It is modelled as `None`.
- SsaRenaming.Start: the constructor's body, in `SSA.cpp`, is not part of this model. The starting counter is a parameter.
- Dominance.AddToFrontier: the body of `add_to_bb_dominance_frontier` is not part of this model. Insertion is modelled with set semantics, so an already present block is not appended again.
- StringLiteral.SingleQuotedBody: PHP's reading of the written literal is proved only for values without a backslash (`BackslashFreeLiteralClosesAtEnd`, `PhpReadsBackslashFreeBody`). For values with a backslash, only the examples above are proved. What the token's `source_rep` holds for a singly quoted string is set by the lexer, which is not part of this model, so it is left open whether such values reach this code.
- Escape.Unescape: reads only the escapes `echo_escaped` writes. PHP's `\v`, `\e`, `\f`, octal and `\u{…}` escapes and the interpolation of a bare `$` are not modelled. `Escape.EscapeBytesEmitted` shows that the escaped text never contains them.
- The counter's `int` width. Versions are unbounded integers, so overflow after 2^31 names is not modelled.

=== FILE: dominance.dfy ===
/**
 The maps a dominance analysis keeps, keyed by graph vertex so that blocks can
 be rewritten without invalidating them: each block's immediate dominator,
 the blocks each block immediately dominates, and each block's dominance
 frontier.

 How the maps are computed is not part of this model; it states the shape
 they have and the operations that read and extend them.
 */
module Dominance {
  import opened Wrappers

  /** A vertex of the control-flow graph, standing for its basic block. */
  type Vertex = nat

  datatype Dominance = Dominance(
    df: map<Vertex, seq<Vertex>>,
    idominated: map<Vertex, seq<Vertex>>,
    idominator: map<Vertex, Vertex>)

  /**
   `idominated` is the inverse of `idominator`: `v` is listed under `b`
   exactly when `b` is the immediate dominator of `v`.
   */
  ghost predicate IsInverse(idominator: map<Vertex, Vertex>, idominated: map<Vertex, seq<Vertex>>)
  {
    && (forall v :: v in idominator ==> idominator[v] in idominated && v in idominated[idominator[v]])
    && (forall b, v :: b in idominated && v in idominated[b] ==> v in idominator && idominator[v] == b)
  }

  /** The vertices of `order` whose immediate dominator is `b`, in that order. */
  function DominatedIn(idominator: map<Vertex, Vertex>, order: seq<Vertex>, b: Vertex): (r: seq<Vertex>)
    ensures forall v :: v in r <==> v in order && v in idominator && idominator[v] == b
    decreases |order|
  {
    if order == [] then []
    else
      var rest := DominatedIn(idominator, order[1..], b);
      var v := order[0];
      assert forall w :: w in order <==> w == v || w in order[1..];
      if v in idominator && idominator[v] == b then [v] + rest else rest
  }

  /**
   The immediate-dominator map turned around: the blocks each block
   immediately dominates, listed in the order of `order`, which enumerates
   the vertices that have an immediate dominator.
   */
  function Invert(idominator: map<Vertex, Vertex>, order: seq<Vertex>): (idominated: map<Vertex, seq<Vertex>>)
    requires forall v :: v in idominator <==> v in order
    ensures IsInverse(idominator, idominated)
  {
    map b | b in idominator.Values :: DominatedIn(idominator, order, b)
  }

  /** `get_bb_immediate_dominator`; `None` for a block without one. */
  function ImmediateDominator(d: Dominance, bb: Vertex): (r: Option<Vertex>)
    ensures r.None? <==> bb !in d.idominator
    ensures r.Some? ==> d.idominator[bb] == r.value
  {
    if bb in d.idominator then Some(d.idominator[bb]) else None
  }

  /** `get_blocks_dominated_by_bb`; empty for a block that dominates none. */
  function BlocksDominatedBy(d: Dominance, bb: Vertex): (r: seq<Vertex>)
    ensures bb !in d.idominated ==> r == []
    ensures IsInverse(d.idominator, d.idominated) ==>
      forall v :: v in r <==> v in d.idominator && d.idominator[v] == bb
  {
    if bb in d.idominated then d.idominated[bb] else []
  }

  /** The two queries answer each other when the maps are inverse. */
  lemma DominatedIffImmediateDominator(d: Dominance, b: Vertex, v: Vertex)
    requires IsInverse(d.idominator, d.idominated)
    ensures v in BlocksDominatedBy(d, b) <==> ImmediateDominator(d, v) == Some(b)
  {
  }

  /** No block is listed twice. */
  predicate NoRepeats(s: seq<Vertex>)
  {
    forall i, j :: 0 <= i < j < |s| ==> s[i] != s[j]
  }

  /** `get_bb_dominance_frontier`; empty for a block with none recorded. */
  function Frontier(d: Dominance, bb: Vertex): (r: seq<Vertex>)
    ensures bb in d.df ==> r == d.df[bb]
    ensures bb !in d.df ==> r == []
  {
    if bb in d.df then d.df[bb] else []
  }

  /** `is_bb_in_dominance_frontier`: `frontier` is in the frontier of `bb`. */
  predicate IsInFrontier(d: Dominance, bb: Vertex, frontier: Vertex): (b: bool)
    ensures b ==> bb in d.df
    ensures b <==> exists i :: 0 <= i < |Frontier(d, bb)| && Frontier(d, bb)[i] == frontier
  {
    frontier in Frontier(d, bb)
  }

  /**
   `add_to_bb_dominance_frontier`: put `frontier` into the frontier of `bb`,
   as a set, so adding it again changes nothing.
   */
  function AddToFrontier(d: Dominance, bb: Vertex, frontier: Vertex): (r: Dominance)
    ensures r.idominator == d.idominator && r.idominated == d.idominated
    ensures forall b :: b != bb ==> Frontier(r, b) == Frontier(d, b)
    ensures forall v :: v in Frontier(r, bb) <==> v in Frontier(d, bb) || v == frontier
    ensures NoRepeats(Frontier(d, bb)) ==> NoRepeats(Frontier(r, bb))
  {
    var f := Frontier(d, bb);
    if frontier in f then d else d.(df := d.df[bb := f + [frontier]])
  }

  /** After adding a block to a frontier, it is in that frontier. */
  lemma AddThenIsIn(d: Dominance, bb: Vertex, frontier: Vertex)
    ensures IsInFrontier(AddToFrontier(d, bb, frontier), bb, frontier)
  {
  }

  /** Adding is idempotent. */
  lemma AddIdempotent(d: Dominance, bb: Vertex, frontier: Vertex)
    ensures AddToFrontier(AddToFrontier(d, bb, frontier), bb, frontier) == AddToFrontier(d, bb, frontier)
  {
  }
}

=== FILE: escape.dfy ===
/**
 `echo_escaped`: the body of a double-quoted PHP string literal.

 Every byte is encoded on its own: line feed, carriage return and tab as
 two-character escapes, backslash, dollar and double quote behind a
 backslash, the remaining control bytes as `\x` and two upper-case hex
 digits, everything else as itself.

 The control-byte test compares a plain C++ `char` with 32. Whether `char` is
 signed is up to the platform, so the reading is a parameter: with a signed
 `char` the bytes 0x80 to 0xFF are negative and also take the `\x` path, with
 an unsigned `char` they are copied unchanged.
 */
module Escape {
  import opened Text
  import Layout

  datatype CharSign = SignedChar | UnsignedChar

  const HEX_DIGITS: Bytes := "0123456789ABCDEF"

  /** The bytes with an escape of their own, checked before the control test. */
  predicate IsSpecial(b: Byte)
  {
    b == '\n' || b == '\r' || b == '\t' || b == '\\' || b == '$' || b == '"'
  }

  /** The test `c < 32 || c == 127`, with `c` read as a plain `char`. */
  predicate IsControl(sign: CharSign, b: Byte)
  {
    b < ' ' || b == '\U{7F}' || (sign == SignedChar && b >= '\U{80}')
  }

  /** `\x` and the byte's value as exactly two upper-case hex digits. */
  function HexEscape(b: Byte): (r: Bytes)
    ensures |r| == 4 && r[..2] == "\\x"
    ensures r[2] in HEX_DIGITS && r[3] in HEX_DIGITS
    ensures forall sign, i :: 0 <= i < |r| ==> !IsControl(sign, r[i])
  {
    ['\\', 'x', HEX_DIGITS[b as int / 16], HEX_DIGITS[b as int % 16]]
  }

  function EscapeByte(sign: CharSign, b: Byte): (r: Bytes)
    ensures 1 <= |r| <= 4
    ensures r == [b] <==> !IsSpecial(b) && !IsControl(sign, b)
    ensures |r| == 2 <==> IsSpecial(b)
    ensures |r| == 4 <==> !IsSpecial(b) && IsControl(sign, b)
    ensures |r| > 1 ==> r[0] == BACKSLASH
    ensures forall i :: 0 <= i < |r| ==> !IsControl(sign, r[i])
  {
    match b
    case '\n' => "\\n"
    case '\r' => "\\r"
    case '\t' => "\\t"
    case '\\' => ['\\', b]
    case '$' => ['\\', b]
    case '"' => ['\\', b]
    case _ => if IsControl(sign, b) then HexEscape(b) else [b]
  }

  /** The escaped text, one byte at a time. */
  function EscapeBytes(sign: CharSign, s: Bytes): (r: Bytes)
    ensures |s| <= |r| <= 4 * |s|
    ensures forall i :: 0 <= i < |r| ==> !IsControl(sign, r[i])
    decreases |s|
  {
    if s == [] then [] else EscapeByte(sign, s[0]) + EscapeBytes(sign, s[1..])
  }

  /** Escaping works byte by byte, so it distributes over concatenation. */
  lemma {:induction false} EscapeBytesAppend(sign: CharSign, s: Bytes, t: Bytes)
    ensures EscapeBytes(sign, s + t) == EscapeBytes(sign, s) + EscapeBytes(sign, t)
    decreases |s|
  {
    if s == [] {
      assert s + t == t;
    } else {
      assert (s + t)[1..] == s[1..] + t;
      EscapeBytesAppend(sign, s[1..], t);
    }
  }

  /** A printable byte outside the special set passes through unchanged. */
  lemma EscapeKeepsPlainBytes(sign: CharSign, s: Bytes)
    requires forall i :: 0 <= i < |s| ==> !IsSpecial(s[i]) && !IsControl(sign, s[i])
    ensures EscapeBytes(sign, s) == s
    decreases |s|
  {
    if s != [] {
      EscapeKeepsPlainBytes(sign, s[1..]);
    }
  }

  // ---------------------------------------------------------------------
  // How PHP reads the escapes back
  // ---------------------------------------------------------------------

  predicate IsHexDigit(c: Byte)
  {
    ('0' <= c <= '9') || ('A' <= c <= 'F') || ('a' <= c <= 'f')
  }

  function HexValue(c: Byte): (v: nat)
    requires IsHexDigit(c)
    ensures v < 16
  {
    if '0' <= c <= '9' then c as int - '0' as int
    else if 'A' <= c <= 'F' then c as int - 'A' as int + 10
    else c as int - 'a' as int + 10
  }

  /**
   How PHP reads the escapes `echo_escaped` writes: `\n`, `\r`, `\t`, `\\`,
   `\$`, `\"` and `\x` with one or two hex digits. PHP knows more escapes
   (`\v`, `\e`, `\f`, octal, `\u{…}`) and interpolates a bare `$`; none of
   those is modelled here, where a backslash before anything else stands for
   itself. On text made only of the pieces `echo_escaped` writes
   (`OnlyEmittedEscapes`) the difference never arises.
   */
  function Unescape(t: Bytes): Bytes
    decreases |t|
  {
    if t == [] then []
    else if t[0] == BACKSLASH && |t| >= 2 then
      var c := t[1];
      if c == 'n' then ['\n'] + Unescape(t[2..])
      else if c == 'r' then ['\r'] + Unescape(t[2..])
      else if c == 't' then ['\t'] + Unescape(t[2..])
      else if c == '\\' || c == '$' || c == '"' then [c] + Unescape(t[2..])
      else if c == 'x' && |t| >= 3 && IsHexDigit(t[2]) then
        if |t| >= 4 && IsHexDigit(t[3]) then
          [(HexValue(t[2]) * 16 + HexValue(t[3])) as char] + Unescape(t[4..])
        else
          [HexValue(t[2]) as char] + Unescape(t[3..])
      else [t[0]] + Unescape(t[1..])
    else [t[0]] + Unescape(t[1..])
  }

  lemma HexDigitValue(k: nat)
    requires k < 16
    ensures IsHexDigit(HEX_DIGITS[k]) && HexValue(HEX_DIGITS[k]) == k
  {
  }

  /** PHP reads `\x` and two hex digits as the byte they spell. */
  lemma UnescapeHexPair(hi: Byte, lo: Byte, rest: Bytes)
    requires IsHexDigit(hi) && IsHexDigit(lo)
    ensures Unescape(['\\', 'x', hi, lo] + rest) == [(HexValue(hi) * 16 + HexValue(lo)) as char] + Unescape(rest)
  {
    var t := ['\\', 'x', hi, lo] + rest;
    assert t[0] == BACKSLASH && t[1] == 'x' && t[2] == hi && t[3] == lo;
    assert t[4..] == rest;
  }

  lemma UnescapeHexEscape(b: Byte, rest: Bytes)
    ensures Unescape(HexEscape(b) + rest) == [b] + Unescape(rest)
  {
    var hi, lo := b as int / 16, b as int % 16;
    HexDigitValue(hi);
    HexDigitValue(lo);
    UnescapeHexPair(HEX_DIGITS[hi], HEX_DIGITS[lo], rest);
    assert hi * 16 + lo == b as int;
  }

  lemma UnescapeSpecial(b: Byte, rest: Bytes)
    requires IsSpecial(b)
    ensures forall sign :: Unescape(EscapeByte(sign, b) + rest) == [b] + Unescape(rest)
  {
    forall sign ensures Unescape(EscapeByte(sign, b) + rest) == [b] + Unescape(rest) {
      var t := EscapeByte(sign, b) + rest;
      assert t[2..] == rest;
    }
  }

  /** PHP reads each escape back as the byte it encodes. */
  lemma UnescapeEscapeByte(sign: CharSign, b: Byte, rest: Bytes)
    ensures Unescape(EscapeByte(sign, b) + rest) == [b] + Unescape(rest)
  {
    if IsSpecial(b) {
      UnescapeSpecial(b, rest);
    } else if IsControl(sign, b) {
      assert EscapeByte(sign, b) == HexEscape(b);
      UnescapeHexEscape(b, rest);
    } else {
      var t := EscapeByte(sign, b) + rest;
      assert t[1..] == rest;
    }
  }

  /**
   Text made only of the pieces `echo_escaped` writes: a byte other than a
   backslash, `$` and `"`; one of `\n`, `\r`, `\t`, `\\`, `\$` and `\"`; or
   `\x` and two upper-case hex digits. In such text no bare `$` starts an
   interpolation, no bare `"` ends the literal, and every backslash starts
   one of the escapes `Unescape` reads.
   */
  predicate OnlyEmittedEscapes(t: Bytes)
    decreases |t|
  {
    if t == [] then true
    else if t[0] == BACKSLASH then
      if |t| >= 2 && (t[1] == 'n' || t[1] == 'r' || t[1] == 't' || t[1] == '\\' || t[1] == '$' || t[1] == '"') then
        OnlyEmittedEscapes(t[2..])
      else
        |t| >= 4 && t[1] == 'x' && t[2] in HEX_DIGITS && t[3] in HEX_DIGITS && OnlyEmittedEscapes(t[4..])
    else t[0] != '$' && t[0] != '"' && OnlyEmittedEscapes(t[1..])
  }

  /** The escape of one byte is one of those pieces. */
  lemma EscapeByteEmitted(sign: CharSign, b: Byte, rest: Bytes)
    requires OnlyEmittedEscapes(rest)
    ensures OnlyEmittedEscapes(EscapeByte(sign, b) + rest)
  {
    var e := EscapeByte(sign, b);
    var t := e + rest;
    if IsSpecial(b) {
      assert t[2..] == rest;
    } else if IsControl(sign, b) {
      assert e == HexEscape(b);
      assert t[4..] == rest;
    } else {
      assert t[1..] == rest;
    }
  }

  /** The escaped text holds only the escapes listed above, and no bare `$` or `"`. */
  lemma {:induction false} EscapeBytesEmitted(sign: CharSign, s: Bytes)
    ensures OnlyEmittedEscapes(EscapeBytes(sign, s))
    decreases |s|
  {
    if s != [] {
      EscapeBytesEmitted(sign, s[1..]);
      EscapeByteEmitted(sign, s[0], EscapeBytes(sign, s[1..]));
    }
  }

  /** Escaping loses nothing: PHP reads back exactly the original bytes. */
  lemma {:induction false} EscapeRoundTrip(sign: CharSign, s: Bytes)
    ensures Unescape(EscapeBytes(sign, s)) == s
    decreases |s|
  {
    if s != [] {
      UnescapeEscapeByte(sign, s[0], EscapeBytes(sign, s[1..]));
      EscapeRoundTrip(sign, s[1..]);
      assert [s[0]] + s[1..] == s;
    }
  }

  /**
   `echo_escaped`: indent the line if needed, then write the escaped bytes.
   What follows the indentation reads back as `s`.
   */
  function EchoEscaped(st: Layout.State, tab: Bytes, sign: CharSign, s: Bytes): (r: Layout.Step)
    ensures !r.next.atStartOfLine && r.next.indentLevel == st.indentLevel
    ensures var tabs := Layout.OutputTabs(st, tab).text;
      StartsWith(r.text, tabs) && Unescape(r.text[|tabs|..]) == s
    ensures r.text == Layout.OutputTabs(st, tab).text + EscapeBytes(sign, s)
    ensures var body := r.text[|Layout.OutputTabs(st, tab).text|..];
      OnlyEmittedEscapes(body) && forall i :: 0 <= i < |body| ==> !IsControl(sign, body[i])
  {
    var t := Layout.OutputTabs(st, tab);
    EscapeRoundTrip(sign, s);
    EscapeBytesEmitted(sign, s);
    assert (t.text + EscapeBytes(sign, s))[|t.text|..] == EscapeBytes(sign, s);
    Layout.Step(t.next, t.text + EscapeBytes(sign, s))
  }
}

=== FILE: invocation.dfy ===
/**
 `children_method_invocation`: how a call is written back.

 A call on a class is written `Class::name`, except that the names of the
 compiler's pseudo-classes (those starting with `%`) are left out; a call on
 anything else is written `target->name`. Calls of the builtins `echo`,
 `print`, `include`, `include_once`, `require`, `require_once` and `use` on
 the pseudo-class `%STDLIB%` are written without brackets, as `name args`;
 every other call as `name(args)`.

 The target, the method name and the argument list are visited by the
 unparser's tree walk; each is modelled by the text that walk echoes for it.
 */
module Invocation {
  import opened Text
  import Layout

  /** A class name token, or any other target with the text it is unparsed to. */
  datatype Target = ClassTarget(className: Bytes) | ExprTarget(rendered: Bytes)

  /** A method name token, or a computed method name with its text. */
  datatype MethodName = NameToken(name: Bytes) | ComputedName(rendered: Bytes)

  const STDLIB: Bytes := "%STDLIB%"

  predicate IsBracketlessBuiltin(name: Bytes)
  {
    name == "echo" || name == "print" || name == "include" || name == "include_once"
    || name == "require" || name == "require_once" || name == "use"
  }

  /** A class name starting with `%` names one of the compiler's pseudo-classes. */
  predicate IsPseudoClass(className: Bytes)
  {
    |className| > 0 && className[0] == '%'
  }

  /** The brackets are dropped for exactly the listed builtins on `%STDLIB%`. */
  predicate UseBrackets(target: Target, callee: MethodName)
  {
    !(target.ClassTarget? && target.className == STDLIB
      && callee.NameToken? && IsBracketlessBuiltin(callee.name))
  }

  function MethodText(callee: MethodName): Bytes
  {
    match callee
    case NameToken(n) => n
    case ComputedName(r) => r
  }

  /** What is echoed before the callee name. */
  function TargetPieces(target: Target): seq<Bytes>
  {
    match target
    case ClassTarget(c) => if IsPseudoClass(c) then [] else [c, "::"]
    case ExprTarget(r) => [r, "->"]
  }

  /** Everything echoed for the call, in order. */
  function CallPieces(target: Target, callee: MethodName, args: Bytes): seq<Bytes>
  {
    TargetPieces(target) + [MethodText(callee)]
    + (if UseBrackets(target, callee) then ["(", args, ")"] else [" ", args])
  }

  /** The text of the call, without the line's indentation. */
  function CallText(target: Target, callee: MethodName, args: Bytes): Bytes
  {
    Concat(CallPieces(target, callee, args))
  }

  /**
   `children_method_invocation` as the echo calls it makes: the line's
   indentation, if any, then the call.
   */
  function ChildrenMethodInvocation(st: Layout.State, tab: Bytes, target: Target, callee: MethodName, args: Bytes)
    : (r: Layout.Step)
    ensures !r.next.atStartOfLine && r.next.indentLevel == st.indentLevel
    ensures r.text == Layout.OutputTabs(st, tab).text + CallText(target, callee, args)
  {
    Layout.EchoAllIndentsOnce(st, tab, CallPieces(target, callee, args));
    Layout.EchoAll(st, tab, CallPieces(target, callee, args))
  }

  /** The text before the callee name: `Class::`, `target->`, or nothing. */
  function Prefix(target: Target): Bytes
  {
    Concat(TargetPieces(target))
  }

  lemma CallTextParts(target: Target, callee: MethodName, args: Bytes)
    ensures UseBrackets(target, callee) ==>
      CallText(target, callee, args) == Prefix(target) + MethodText(callee) + "(" + args + ")"
    ensures !UseBrackets(target, callee) ==>
      CallText(target, callee, args) == Prefix(target) + MethodText(callee) + " " + args
  {
    var tail: seq<Bytes> := if UseBrackets(target, callee) then ["(", args, ")"] else [" ", args];
    var head := TargetPieces(target) + [MethodText(callee)];
    ConcatAppend(head, tail);
    ConcatAppend(TargetPieces(target), [MethodText(callee)]);
    assert Concat([MethodText(callee)]) == MethodText(callee) + Concat([]);
    assert Concat(head) == Prefix(target) + MethodText(callee);
    if UseBrackets(target, callee) {
      assert Concat(tail) == "(" + args + ")" by {
        assert tail[1..] == [args, ")"] && tail[1..][1..] == [")"];
        assert Concat([")"]) == ")" + Concat([]);
      }
    } else {
      assert Concat(tail) == " " + args by {
        assert tail[1..] == [args];
        assert Concat([args]) == args + Concat([]);
      }
    }
  }

  /**
   A call on `%STDLIB%` is written `name args` when `name` is one of the
   bracketless builtins and `name(args)` otherwise; the pseudo-class itself
   is never written.
   */
  lemma StdlibBrackets(name: Bytes, args: Bytes)
    ensures CallText(ClassTarget(STDLIB), NameToken(name), args) == name + " " + args
      <==> IsBracketlessBuiltin(name)
    ensures CallText(ClassTarget(STDLIB), NameToken(name), args) == name + "(" + args + ")"
      <==> !IsBracketlessBuiltin(name)
  {
    var target, callee := ClassTarget(STDLIB), NameToken(name);
    CallTextParts(target, callee, args);
    assert Prefix(target) == [];
    var t := CallText(target, callee, args);
    if IsBracketlessBuiltin(name) {
      assert t[|name|] == ' ';
      assert (name + "(" + args + ")")[|name|] == '(';
    } else {
      assert t[|name|] == '(';
      assert (name + " " + args)[|name|] == ' ';
    }
  }

  /** Every call other than a bracketless builtin on `%STDLIB%` is bracketed. */
  lemma OtherCallsBracketed(target: Target, callee: MethodName, args: Bytes)
    requires !(target == ClassTarget(STDLIB) && callee.NameToken? && IsBracketlessBuiltin(callee.name))
    ensures CallText(target, callee, args) == Prefix(target) + MethodText(callee) + "(" + args + ")"
  {
    CallTextParts(target, callee, args);
  }

  /** Pseudo-class names are left out: the call starts with the callee name. */
  lemma PseudoClassNotWritten(className: Bytes, callee: MethodName, args: Bytes)
    requires IsPseudoClass(className)
    ensures StartsWith(CallText(ClassTarget(className), callee, args), MethodText(callee))
  {
    var target := ClassTarget(className);
    CallTextParts(target, callee, args);
    assert Prefix(target) == [];
  }
}

=== FILE: layout.dfy ===
/**
 The unparser's layout state machine: the current indentation level and
 whether the output is at the start of a line.

 Each operation takes the state before the call and returns the state after
 it together with the bytes the call writes. The tab string, a command-line
 option in the unparser, is a parameter.
 */
module Layout {
  import opened Text

  datatype State = State(indentLevel: int, atStartOfLine: bool)

  /** The state after a call and the bytes the call wrote. */
  datatype Step = Step(next: State, text: Bytes)

  /** A fresh unparser: no indentation, at the start of a line. */
  const Initial: State := State(0, true)

  /** The number of tab strings a line at `level` starts with. */
  function TabCount(level: int): nat
  {
    if level <= 0 then 0 else level
  }

  /**
   Break the line unless the output is already at the start of one.
   */
  function Newline(st: State): (r: Step)
    ensures r.next.atStartOfLine && r.next.indentLevel == st.indentLevel
    ensures |r.text| <= 1
    ensures r.text == [] <==> st.atStartOfLine
    ensures forall i :: 0 <= i < |r.text| ==> r.text[i] == NEWLINE
  {
    if !st.atStartOfLine then Step(st.(atStartOfLine := true), [NEWLINE])
    else Step(st, [])
  }

  /**
   Indent the start of a line; in the middle of a line write nothing.
   Afterwards the output is never at the start of a line.
   */
  function OutputTabs(st: State, tab: Bytes): (r: Step)
    ensures !r.next.atStartOfLine && r.next.indentLevel == st.indentLevel
    ensures st.atStartOfLine ==> |r.text| == TabCount(st.indentLevel) * |tab|
    ensures !st.atStartOfLine ==> r.text == []
    ensures forall i :: 0 <= i < |r.text| ==> r.text[i] in tab
    ensures st.atStartOfLine ==> forall k :: 0 <= k < TabCount(st.indentLevel) ==>
      k * |tab| + |tab| <= |r.text| && r.text[k * |tab| .. k * |tab| + |tab|] == tab
  {
    RepeatCopies(tab, TabCount(st.indentLevel));
    var text := if st.atStartOfLine then Repeat(tab, TabCount(st.indentLevel)) else [];
    Step(st.(atStartOfLine := false), text)
  }

  /** Always write a line break, even at the start of a line. */
  function EmptyLine(st: State): (r: Step)
    ensures r.next.atStartOfLine && r.next.indentLevel == st.indentLevel
    ensures r.text == [NEWLINE]
  {
    Step(st.(atStartOfLine := true), [NEWLINE])
  }

  /** One level deeper, then a line break if one is needed. */
  function IncIndent(st: State): (r: Step)
    ensures r.next.atStartOfLine && r.next.indentLevel == st.indentLevel + 1
    ensures r.text == Newline(st).text
  {
    Newline(st.(indentLevel := st.indentLevel + 1))
  }

  /** One level shallower, then a line break if one is needed. */
  function DecIndent(st: State): (r: Step)
    ensures r.next.atStartOfLine && r.next.indentLevel == st.indentLevel - 1
    ensures r.text == Newline(st).text
  {
    Newline(st.(indentLevel := st.indentLevel - 1))
  }

  /** Write `s` after indenting the line if it is at its start. */
  function Echo(st: State, tab: Bytes, s: Bytes): (r: Step)
    ensures !r.next.atStartOfLine && r.next.indentLevel == st.indentLevel
    ensures r.text == OutputTabs(st, tab).text + s
    ensures !st.atStartOfLine ==> r.text == s
  {
    var t := OutputTabs(st, tab);
    Step(t.next, t.text + s)
  }

  /** Write `s`, then break the line. */
  function EchoNl(st: State, tab: Bytes, s: Bytes): (r: Step)
    ensures r.next.atStartOfLine && r.next.indentLevel == st.indentLevel
    ensures r.text == OutputTabs(st, tab).text + s + [NEWLINE]
  {
    var e := Echo(st, tab, s);
    var n := Newline(e.next);
    Step(n.next, e.text + n.text)
  }

  /** Several `Echo` calls in a row. */
  function EchoAll(st: State, tab: Bytes, pieces: seq<Bytes>): (r: Step)
    requires pieces != []
    ensures !r.next.atStartOfLine && r.next.indentLevel == st.indentLevel
    decreases |pieces|
  {
    var e := Echo(st, tab, pieces[0]);
    if |pieces| == 1 then e
    else
      var rest := EchoAll(e.next, tab, pieces[1..]);
      Step(rest.next, e.text + rest.text)
  }

  /**
   Echoing several pieces indents the line at most once: the output is the
   indentation `OutputTabs` writes followed by the pieces themselves.
   */
  lemma {:induction false} EchoAllIndentsOnce(st: State, tab: Bytes, pieces: seq<Bytes>)
    requires pieces != []
    ensures EchoAll(st, tab, pieces).text == OutputTabs(st, tab).text + Concat(pieces)
    decreases |pieces|
  {
    if |pieces| > 1 {
      var e := Echo(st, tab, pieces[0]);
      EchoAllIndentsOnce(e.next, tab, pieces[1..]);
      assert OutputTabs(e.next, tab).text == [];
    }
  }

  /** Two line breaks in a row write at most one line break. */
  lemma NewlineIdempotent(st: State)
    ensures Newline(Newline(st).next) == Step(Newline(st).next, [])
    ensures |Newline(st).text + Newline(Newline(st).next).text| <= 1
  {
  }

  /** Indentation is written once per line: a second call writes nothing. */
  lemma OutputTabsOncePerLine(st: State, tab: Bytes)
    ensures OutputTabs(OutputTabs(st, tab).next, tab) == Step(OutputTabs(st, tab).next, [])
  {
  }

  /**
   `inc_indent` followed by `dec_indent` restores the indentation level and
   together writes exactly what a single `newline` writes.
   */
  lemma IncThenDecRestores(st: State)
    ensures DecIndent(IncIndent(st).next).next == Newline(st).next
    ensures IncIndent(st).text + DecIndent(IncIndent(st).next).text == Newline(st).text
  {
  }

  /** The layout calls the unparser makes, in order. */
  datatype Call =
    | EchoCall(s: Bytes)
    | NewlineCall
    | EmptyLineCall
    | IncIndentCall
    | DecIndentCall

  function Perform(st: State, tab: Bytes, c: Call): Step
  {
    match c
    case EchoCall(s) => Echo(st, tab, s)
    case NewlineCall => Newline(st)
    case EmptyLineCall => EmptyLine(st)
    case IncIndentCall => IncIndent(st)
    case DecIndentCall => DecIndent(st)
  }

  /** The state after the calls and everything they wrote. */
  function Run(st: State, tab: Bytes, calls: seq<Call>): Step
    decreases |calls|
  {
    if calls == [] then Step(st, [])
    else
      var first := Perform(st, tab, calls[0]);
      var rest := Run(first.next, tab, calls[1..]);
      Step(rest.next, first.text + rest.text)
  }

  /**
   The layout state agrees with the output written so far: at the start of a
   line exactly when nothing was written yet or the last byte is a line break.
   */
  predicate Agrees(st: State, out: Bytes)
  {
    if st.atStartOfLine then out == [] || out[|out| - 1] == NEWLINE
    else out != [] && out[|out| - 1] != NEWLINE
  }

  /** A call that never writes a line break itself, other than `empty_line`. */
  predicate Tidy(c: Call)
  {
    match c
    case EchoCall(s) => s != [] && NEWLINE !in s
    case EmptyLineCall => false
    case _ => true
  }

  /** Gluing two texts without blank lines makes none unless the seam does. */
  lemma AppendNoBlankLine(out: Bytes, text: Bytes)
    requires NoBlankLine(out) && NoBlankLine(text)
    requires out != [] && text != [] ==> !(out[|out| - 1] == NEWLINE && text[0] == NEWLINE)
    ensures NoBlankLine(out + text)
  {
    var o := out + text;
    forall i | 0 <= i < |o| - 1
      ensures !(o[i] == NEWLINE && o[i + 1] == NEWLINE)
    {
      if i >= |out| {
        assert o[i] == text[i - |out|] && o[i + 1] == text[i + 1 - |out|];
      } else if i < |out| - 1 {
        assert o[i] == out[i] && o[i + 1] == out[i + 1];
      } else {
        assert o[i] == out[|out| - 1] && o[i + 1] == text[0];
      }
    }
  }

  /** What a tidy `echo` writes holds no line break at all. */
  lemma EchoWritesNoBreak(st: State, tab: Bytes, s: Bytes)
    requires NEWLINE !in tab && NEWLINE !in s
    ensures NEWLINE !in Echo(st, tab, s).text
  {
    assert NEWLINE !in OutputTabs(st, tab).text;
  }

  lemma PerformKeepsAgreement(st: State, tab: Bytes, c: Call, out: Bytes)
    requires NEWLINE !in tab && Tidy(c)
    requires Agrees(st, out) && NoBlankLine(out)
    ensures Agrees(Perform(st, tab, c).next, out + Perform(st, tab, c).text)
    ensures NoBlankLine(out + Perform(st, tab, c).text)
  {
    var r := Perform(st, tab, c);
    match c
    case EchoCall(s) =>
      EchoWritesNoBreak(st, tab, s);
      AppendNoBlankLine(out, r.text);
      assert (out + r.text)[|out + r.text| - 1] == s[|s| - 1];
    case NewlineCall =>
      AppendNoBlankLine(out, r.text);
    case IncIndentCall =>
      AppendNoBlankLine(out, r.text);
    case DecIndentCall =>
      AppendNoBlankLine(out, r.text);
  }

  /**
   Only `empty_line` makes blank lines: from any state that agrees with the
   output written so far, a run of `echo` calls with non-empty text free of
   line breaks, `newline`, `inc_indent` and `dec_indent` adds no two line
   breaks in a row and keeps the state in agreement with the output.
   */
  lemma {:induction false} OnlyEmptyLineMakesBlankLines(st: State, tab: Bytes, calls: seq<Call>, out: Bytes)
    requires NEWLINE !in tab
    requires forall i :: 0 <= i < |calls| ==> Tidy(calls[i])
    requires Agrees(st, out) && NoBlankLine(out)
    ensures NoBlankLine(out + Run(st, tab, calls).text)
    ensures Agrees(Run(st, tab, calls).next, out + Run(st, tab, calls).text)
    decreases |calls|
  {
    if calls == [] {
      assert out + [] == out;
    } else {
      var first := Perform(st, tab, calls[0]);
      PerformKeepsAgreement(st, tab, calls[0], out);
      OnlyEmptyLineMakesBlankLines(first.next, tab, calls[1..], out + first.text);
      RunFirst(st, tab, calls, out);
    }
  }

  /** A run is its first call followed by the run of the rest. */
  lemma RunFirst(st: State, tab: Bytes, calls: seq<Call>, out: Bytes)
    requires calls != []
    ensures var first := Perform(st, tab, calls[0]);
      var rest := Run(first.next, tab, calls[1..]);
      Run(st, tab, calls).next == rest.next && out + Run(st, tab, calls).text == (out + first.text) + rest.text
  {
  }

  /**
   A fresh unparser, with no indentation and at the start of a line, never
   writes a blank line through tidy calls.
   */
  lemma FreshUnparserWritesNoBlankLine(tab: Bytes, calls: seq<Call>)
    requires NEWLINE !in tab
    requires forall i :: 0 <= i < |calls| ==> Tidy(calls[i])
    ensures NoBlankLine(Run(Initial, tab, calls).text)
  {
    OnlyEmptyLineMakesBlankLines(Initial, tab, calls, []);
    assert [] + Run(Initial, tab, calls).text == Run(Initial, tab, calls).text;
  }
}

=== FILE: modifiers.dfy ===
/**
 `children_attr_mod`: the modifiers of a class attribute. Each modifier that
 is set is echoed as its keyword and a space, in the fixed order public,
 protected, private, static, const; an attribute with none of them is
 declared with `var `.
 */
module Modifiers {
  import opened Text
  import opened Wrappers
  import Layout

  datatype AttrMod = AttrMod(isPublic: bool, isProtected: bool, isPrivate: bool, isStatic: bool, isConst: bool)

  predicate NoModifier(m: AttrMod)
  {
    !m.isPublic && !m.isProtected && !m.isPrivate && !m.isStatic && !m.isConst
  }

  /** The number of keywords, `var ` included. */
  const WORDS := 6

  /** The keywords in the order they are written; `var ` comes last. */
  function Word(k: nat): (w: Bytes)
    requires k < WORDS
    ensures |w| >= 4
  {
    match k
    case 0 => "public "
    case 1 => "protected "
    case 2 => "private "
    case 3 => "static "
    case 4 => "const "
    case _ => "var "
  }

  /** Whether keyword `k` of `WORDS` is written for `m`. */
  function Writes(m: AttrMod, k: nat): bool
    requires k < WORDS
  {
    match k
    case 0 => m.isPublic
    case 1 => m.isProtected
    case 2 => m.isPrivate
    case 3 => m.isStatic
    case 4 => m.isConst
    case _ => NoModifier(m)
  }

  /** `word` when the flag is set, nothing otherwise. */
  function When(flag: bool, word: Bytes): Bytes
  {
    if flag then word else []
  }

  /** The echo calls for keywords `k` onwards, one echo per keyword. */
  function KeywordsFrom(m: AttrMod, k: nat): seq<Bytes>
    requires k <= WORDS
    decreases WORDS - k
  {
    if k == WORDS then []
    else (if Writes(m, k) then [Word(k)] else []) + KeywordsFrom(m, k + 1)
  }

  /** The text of keywords `k` onwards. */
  function TextFrom(m: AttrMod, k: nat): Bytes
    requires k <= WORDS
    decreases WORDS - k
  {
    if k == WORDS then [] else When(Writes(m, k), Word(k)) + TextFrom(m, k + 1)
  }

  /** The text of the modifiers, without the line's indentation. */
  function ModifierText(m: AttrMod): Bytes
  {
    TextFrom(m, 0)
  }

  lemma {:induction false} KeywordsSpellText(m: AttrMod, k: nat)
    requires k <= WORDS
    ensures Concat(KeywordsFrom(m, k)) == TextFrom(m, k)
    decreases WORDS - k
  {
    if k < WORDS {
      var first := if Writes(m, k) then [Word(k)] else [];
      ConcatAppend(first, KeywordsFrom(m, k + 1));
      KeywordsSpellText(m, k + 1);
      if Writes(m, k) {
        assert Concat(first) == Word(k) + Concat([]);
      }
    }
  }

  lemma KeywordsNotEmpty(m: AttrMod)
    ensures KeywordsFrom(m, 0) != []
  {
    if NoModifier(m) {
      assert "var " in KeywordsFrom(m, 5);
    }
  }

  /**
   `children_attr_mod` as the echo calls it makes: the line's indentation,
   if any, then the keywords.
   */
  function ChildrenAttrMod(st: Layout.State, tab: Bytes, m: AttrMod): (r: Layout.Step)
    ensures !r.next.atStartOfLine && r.next.indentLevel == st.indentLevel
    ensures r.text == Layout.OutputTabs(st, tab).text + ModifierText(m)
  {
    KeywordsNotEmpty(m);
    Layout.EchoAllIndentsOnce(st, tab, KeywordsFrom(m, 0));
    KeywordsSpellText(m, 0);
    Layout.EchoAll(st, tab, KeywordsFrom(m, 0))
  }

  /** The first keyword from `k` on that `m` writes, or `WORDS` if none. */
  function FirstWritten(m: AttrMod, k: nat): (j: nat)
    requires k <= WORDS
    ensures k <= j <= WORDS
    decreases WORDS - k
  {
    if k == WORDS || Writes(m, k) then k else FirstWritten(m, k + 1)
  }

  /**
   The text from keyword `k` on is empty when no keyword from `k` on is
   written, and otherwise starts with the first one that is.
   */
  lemma {:induction false} TextFromStartsWithWord(m: AttrMod, k: nat)
    requires k <= WORDS
    ensures TextFrom(m, k) == [] <==> FirstWritten(m, k) == WORDS
    ensures TextFrom(m, k) != [] ==> StartsWith(TextFrom(m, k), Word(FirstWritten(m, k)))
    decreases WORDS - k
  {
    if k < WORDS {
      TextFromStartsWithWord(m, k + 1);
      if Writes(m, k) {
        TextFromWritten(m, k);
      } else {
        TextFromSkipped(m, k);
      }
    }
  }

  /** A written keyword comes first in the text from it on. */
  lemma TextFromWritten(m: AttrMod, k: nat)
    requires k < WORDS && Writes(m, k)
    ensures FirstWritten(m, k) == k
    ensures TextFrom(m, k) != [] && StartsWith(TextFrom(m, k), Word(k))
  {
    var t, w := TextFrom(m, k), Word(k);
    assert t == w + TextFrom(m, k + 1);
    assert t[..|w|] == w;
  }

  /** An unwritten keyword adds nothing to the text. */
  lemma TextFromSkipped(m: AttrMod, k: nat)
    requires k < WORDS && !Writes(m, k)
    ensures FirstWritten(m, k) == FirstWritten(m, k + 1)
    ensures TextFrom(m, k) == TextFrom(m, k + 1)
  {
    assert When(false, Word(k)) == [];
  }

  /** `FirstWritten` finds a written keyword and skips only unwritten ones. */
  lemma {:induction false} FirstWrittenIsFirst(m: AttrMod, k: nat, i: nat)
    requires k <= i < WORDS
    ensures FirstWritten(m, k) < WORDS ==> Writes(m, FirstWritten(m, k))
    ensures i < FirstWritten(m, k) ==> !Writes(m, i)
    ensures Writes(m, i) ==> FirstWritten(m, k) <= i
    decreases WORDS - k
  {
    if !Writes(m, k) && k < i {
      FirstWrittenIsFirst(m, k + 1, i);
    } else if !Writes(m, k) && k + 1 < WORDS {
      FirstWrittenIsFirst(m, k + 1, k + 1);
    }
  }

  /** No keyword is a prefix of text that starts with another keyword. */
  lemma WordsDisagreeEarly(t: Bytes, j: nat, k: nat)
    requires j < WORDS && k < WORDS && j != k
    requires StartsWith(t, Word(j))
    ensures !StartsWith(t, Word(k))
  {
    assert t[0] == Word(j)[0] && t[2] == Word(j)[2];
    assert Word(j)[0] != Word(k)[0] || Word(j)[2] != Word(k)[2];
  }

  /** `var ` is written exactly when no modifier is set, and then alone. */
  lemma VarIffNoModifier(m: AttrMod)
    ensures NoModifier(m) <==> ModifierText(m) == "var "
    ensures NoModifier(m) <==> StartsWith(ModifierText(m), "var ")
  {
    var t := ModifierText(m);
    TextFromStartsWithWord(m, 0);
    var j := FirstWritten(m, 0);
    FirstWrittenIsFirst(m, 0, 5);
    if NoModifier(m) {
      assert j == 5;
      assert TextFrom(m, 0) == TextFrom(m, 5);
    } else {
      if m.isPublic {
        FirstWrittenIsFirst(m, 0, 0);
      } else if m.isProtected {
        FirstWrittenIsFirst(m, 0, 1);
      } else if m.isPrivate {
        FirstWrittenIsFirst(m, 0, 2);
      } else if m.isStatic {
        FirstWrittenIsFirst(m, 0, 3);
      } else {
        FirstWrittenIsFirst(m, 0, 4);
      }
      WordsDisagreeEarly(t, j, 5);
    }
  }

  // ---------------------------------------------------------------------
  // Reading the modifiers back
  // ---------------------------------------------------------------------

  /** Whether `t` starts with `word`, and what follows it if so. */
  function Strip(t: Bytes, word: Bytes): (bool, Bytes)
  {
    if StartsWith(t, word) then (true, t[|word|..]) else (false, t)
  }

  /** The modifiers a text of keywords declares, if it is such a text. */
  function ReadModifiers(t: Bytes): Option<AttrMod>
  {
    var s0 := Strip(t, Word(0));
    var s1 := Strip(s0.1, Word(1));
    var s2 := Strip(s1.1, Word(2));
    var s3 := Strip(s2.1, Word(3));
    var s4 := Strip(s3.1, Word(4));
    var m := AttrMod(s0.0, s1.0, s2.0, s3.0, s4.0);
    if s4.1 == When(NoModifier(m), Word(5)) then Some(m) else None
  }

  /** Stripping keyword `k` takes off exactly what `m` wrote for it. */
  lemma StripStep(m: AttrMod, k: nat)
    requires k < WORDS
    ensures Strip(TextFrom(m, k), Word(k)) == (Writes(m, k), TextFrom(m, k + 1))
  {
    var rest := TextFrom(m, k + 1);
    var word := Word(k);
    TextFromStartsWithWord(m, k + 1);
    if rest != [] {
      WordsDisagreeEarly(rest, FirstWritten(m, k + 1), k);
    }
    if Writes(m, k) {
      assert (word + rest)[..|word|] == word;
      assert (word + rest)[|word|..] == rest;
    } else {
      assert TextFrom(m, k) == rest;
    }
  }

  /** The modifier text names its modifiers unambiguously. */
  lemma ModifierTextRoundTrip(m: AttrMod)
    ensures ReadModifiers(ModifierText(m)) == Some(m)
  {
    StripStep(m, 0);
    StripStep(m, 1);
    StripStep(m, 2);
    StripStep(m, 3);
    StripStep(m, 4);
    var s0 := Strip(ModifierText(m), Word(0));
    var s1 := Strip(s0.1, Word(1));
    var s2 := Strip(s1.1, Word(2));
    var s3 := Strip(s2.1, Word(3));
    var s4 := Strip(s3.1, Word(4));
    assert s4 == (Writes(m, 4), TextFrom(m, 5));
    assert AttrMod(s0.0, s1.0, s2.0, s3.0, s4.0) == m;
    assert TextFrom(m, 5) == When(NoModifier(m), Word(5)) by {
      assert TextFrom(m, 6) == [];
    }
  }
}

=== FILE: ssa_renaming.dfy ===
/**
 The bookkeeping of SSA renaming (Cooper and Torczon, section 9.3.4).

 One counter, shared by all variables, holds the version the next SSA name
 gets, so versions are distinct across variables, not numbered per variable.
 Each variable has a stack of versions; its top is the version visible at
 the current point of the walk down the dominator tree. Stacks are kept in a
 map keyed by the variable's name; a name never pushed has an empty stack.
 */
module SsaRenaming {
  import opened Wrappers

  /** A stack of versions; its top is the last element. */
  type VersionStack = seq<int>

  datatype Renaming = Renaming(counter: int, varStacks: map<string, VersionStack>)

  /** The state a renaming pass starts from: no variable has a version yet. */
  function Start(baseline: int): (r: Renaming)
    ensures r.counter == baseline
    ensures forall x :: Stack(r, x) == []
  {
    Renaming(baseline, map[])
  }

  /** The stack of `x`; empty when `x` has no entry in the map. */
  function Stack(r: Renaming, x: string): VersionStack
  {
    if x in r.varStacks then r.varStacks[x] else []
  }

  /** `a` and `b` hold the same stack for every variable. */
  ghost predicate SameStacks(a: Renaming, b: Renaming)
  {
    forall x :: Stack(a, x) == Stack(b, x)
  }

  /** `push_to_var_stack`: `version` becomes the top of the stack of `x`. */
  function Push(r: Renaming, x: string, version: int): (r': Renaming)
    ensures r'.counter == r.counter
    ensures Stack(r', x) == Stack(r, x) + [version]
    ensures forall y :: y != x ==> Stack(r', y) == Stack(r, y)
  {
    r.(varStacks := r.varStacks[x := Stack(r, x) + [version]])
  }

  /**
   `read_var_stack`: the top of the stack of `x`. Reading an empty stack is
   undefined in the source; here it gives `None`.
   */
  function Read(r: Renaming, x: string): (v: Option<int>)
    ensures v.None? <==> Stack(r, x) == []
    ensures v.Some? ==> v.value == Stack(r, x)[|Stack(r, x)| - 1]
  {
    var s := Stack(r, x);
    if s == [] then None else Some(s[|s| - 1])
  }

  /**
   `pop_var_stack`: drop the top of the stack of `x`. Popping an empty stack
   is undefined in the source; here it gives `None`.
   */
  function Pop(r: Renaming, x: string): (r': Option<Renaming>)
    ensures r'.None? <==> Stack(r, x) == []
    ensures r'.Some? ==> r'.value.counter == r.counter
    ensures r'.Some? ==> Stack(r'.value, x) == Stack(r, x)[..|Stack(r, x)| - 1]
    ensures r'.Some? ==> forall y :: y != x ==> Stack(r'.value, y) == Stack(r, y)
  {
    var s := Stack(r, x);
    if s == [] then None else Some(r.(varStacks := r.varStacks[x := s[..|s| - 1]]))
  }

  /**
   `create_new_ssa_name`: `x` gets the counter as its new version, which
   becomes the top of its stack, and the counter moves on.
   */
  function NewName(r: Renaming, x: string): (res: (Renaming, int))
    ensures res.1 == r.counter && res.0.counter == r.counter + 1
    ensures Read(res.0, x) == Some(res.1)
    ensures Stack(res.0, x) == Stack(r, x) + [res.1]
    ensures forall y :: y != x ==> Stack(res.0, y) == Stack(r, y)
  {
    (Push(r, x, r.counter).(counter := r.counter + 1), r.counter)
  }

  /** After a push, a read gives the pushed version. */
  lemma ReadAfterPush(r: Renaming, x: string, version: int)
    ensures Read(Push(r, x, version), x) == Some(version)
  {
  }

  /**
   A pop after a push restores every stack, so a read gives the version of
   the previous level again.
   */
  lemma PopAfterPush(r: Renaming, x: string, version: int)
    ensures Pop(Push(r, x, version), x).Some?
    ensures SameStacks(Pop(Push(r, x, version), x).value, r)
    ensures Read(Pop(Push(r, x, version), x).value, x) == Read(r, x)
  {
    assert (Stack(r, x) + [version])[..|Stack(r, x)|] == Stack(r, x);
  }

  /** Push, pop and read of `x` leave what every other variable reads alone. */
  lemma OtherVariablesUntouched(r: Renaming, x: string, y: string, version: int)
    requires x != y
    ensures Read(Push(r, x, version), y) == Read(r, y)
    ensures Pop(r, x).Some? ==> Read(Pop(r, x).value, y) == Read(r, y)
    ensures Read(NewName(r, x).0, y) == Read(r, y)
  {
  }

  /** Every version on any stack was handed out before: it is below the counter. */
  ghost predicate Issued(r: Renaming)
  {
    forall x, i :: 0 <= i < |Stack(r, x)| ==> Stack(r, x)[i] < r.counter
  }

  /** A new name keeps every version issued and is on no stack before it is made. */
  lemma NewNameIsFresh(r: Renaming, x: string)
    requires Issued(r)
    ensures Issued(NewName(r, x).0)
    ensures forall y, i :: 0 <= i < |Stack(r, y)| ==> Stack(r, y)[i] != NewName(r, x).1
  {
    var r' := NewName(r, x).0;
    forall y, i | 0 <= i < |Stack(r', y)|
      ensures Stack(r', y)[i] < r'.counter
    {
      if y == x && i == |Stack(r, x)| {
        assert Stack(r', y)[i] == r.counter;
      } else {
        assert Stack(r', y)[i] == Stack(r, y)[i];
      }
    }
  }

  /**
   New names for `xs`, one after another: the versions handed out and the
   state after them. The versions are the next `|xs|` counter values, in
   order, so no two of them are equal, whatever the variables.
   */
  function NewNames(r: Renaming, xs: seq<string>): (res: (Renaming, seq<int>))
    ensures |res.1| == |xs| && res.0.counter == r.counter + |xs|
    ensures forall i :: 0 <= i < |xs| ==> res.1[i] == r.counter + i
    decreases |xs|
  {
    if xs == [] then (r, [])
    else
      var (r1, v) := NewName(r, xs[0]);
      var (r2, vs) := NewNames(r1, xs[1..]);
      (r2, [v] + vs)
  }

  /** One pop per variable of `xs`, last one first. */
  function PopAll(r: Renaming, xs: seq<string>): (r': Option<Renaming>)
    ensures r'.Some? ==> r'.value.counter == r.counter
    decreases |xs|
  {
    if xs == [] then Some(r)
    else
      match Pop(r, xs[|xs| - 1])
      case None => None
      case Some(r1) => PopAll(r1, xs[..|xs| - 1])
  }

  /** Pops depend only on the stacks, so states with the same stacks pop alike. */
  lemma {:induction false} PopAllRespectsStacks(a: Renaming, b: Renaming, xs: seq<string>)
    requires SameStacks(a, b)
    ensures PopAll(a, xs).Some? <==> PopAll(b, xs).Some?
    ensures PopAll(a, xs).Some? ==> SameStacks(PopAll(a, xs).value, PopAll(b, xs).value)
    decreases |xs|
  {
    if xs != [] {
      var x := xs[|xs| - 1];
      assert Stack(a, x) == Stack(b, x);
      if Pop(a, x).Some? {
        var a1, b1 := Pop(a, x).value, Pop(b, x).value;
        assert SameStacks(a1, b1) by {
          forall y ensures Stack(a1, y) == Stack(b1, y) {
            assert Stack(a, y) == Stack(b, y);
          }
        }
        PopAllRespectsStacks(a1, b1, xs[..|xs| - 1]);
      }
    }
  }

  lemma NewNamesAppend(r: Renaming, xs: seq<string>, x: string)
    ensures NewNames(r, xs + [x]).0 == NewName(NewNames(r, xs).0, x).0
    decreases |xs|
  {
    if xs != [] {
      assert (xs + [x])[1..] == xs[1..] + [x];
      NewNamesAppend(NewName(r, xs[0]).0, xs[1..], x);
    }
  }

  /** A pop right after a new name restores every stack. */
  lemma PopUndoesNewName(r: Renaming, x: string)
    ensures Pop(NewName(r, x).0, x).Some?
    ensures SameStacks(Pop(NewName(r, x).0, x).value, r)
  {
    var top := NewName(r, x).0;
    var popped := Pop(top, x).value;
    forall y ensures Stack(popped, y) == Stack(r, y) {
      if y == x {
        assert Stack(top, x)[..|Stack(top, x)| - 1] == Stack(r, x);
      }
    }
  }

  /**
   Popping once per definition, last one first, undoes the new names of a
   block: every stack is as it was before them.
   */
  lemma {:induction false} PopsUndoNewNames(r: Renaming, xs: seq<string>)
    ensures PopAll(NewNames(r, xs).0, xs).Some?
    ensures SameStacks(PopAll(NewNames(r, xs).0, xs).value, r)
    decreases |xs|
  {
    if xs != [] {
      var init, x := xs[..|xs| - 1], xs[|xs| - 1];
      assert init + [x] == xs;
      NewNamesAppend(r, init, x);
      var mid := NewNames(r, init).0;
      var top := NewName(mid, x).0;
      assert NewNames(r, xs).0 == top;
      PopUndoesNewName(mid, x);
      var popped := Pop(top, x).value;
      PopsUndoNewNames(r, init);
      PopAllRespectsStacks(popped, mid, init);
    }
  }

  /**
   A block of the dominator tree: the variables its statements define, in
   order, and the blocks it immediately dominates.
   */
  datatype DomTree = Block(defs: seq<string>, children: seq<DomTree>)

  function DefCount(t: DomTree): nat
    decreases t
  {
    |t.defs| + DefCountAll(t.children)
  }

  function DefCountAll(ts: seq<DomTree>): nat
    decreases ts
  {
    if ts == [] then 0 else DefCount(ts[0]) + DefCountAll(ts[1..])
  }

  /**
   `rename_vars` on the bookkeeping alone: give each definition of the block a
   new name, descend into the blocks it dominates, then pop once per
   definition to reveal the versions of the level above. Gives the state
   after the walk and the versions handed out, in the order they were made.
   Returning to the caller, every stack is as it was on entry, and each
   definition below the block got its own counter value.
   */
  function RenameVars(r: Renaming, t: DomTree): (res: Option<(Renaming, seq<int>)>)
    ensures res.Some?
    ensures SameStacks(res.value.0, r)
    ensures res.value.0.counter == r.counter + DefCount(t)
    ensures |res.value.1| == DefCount(t)
    ensures forall i :: 0 <= i < |res.value.1| ==> res.value.1[i] == r.counter + i
    decreases t
  {
    var (r1, vs) := NewNames(r, t.defs);
    match RenameChildren(r1, t.children)
    case None => None
    case Some((r2, ws)) =>
      PopAllRespectsStacks(r2, r1, t.defs);
      PopsUndoNewNames(r, t.defs);
      match PopAll(r2, t.defs)
      case None => None
      case Some(r3) => Some((r3, vs + ws))
  }

  /** The blocks dominated by one block, renamed one after another. */
  function RenameChildren(r: Renaming, ts: seq<DomTree>): (res: Option<(Renaming, seq<int>)>)
    ensures res.Some?
    ensures SameStacks(res.value.0, r)
    ensures res.value.0.counter == r.counter + DefCountAll(ts)
    ensures |res.value.1| == DefCountAll(ts)
    ensures forall i :: 0 <= i < |res.value.1| ==> res.value.1[i] == r.counter + i
    decreases ts
  {
    if ts == [] then Some((r, []))
    else
      match RenameVars(r, ts[0])
      case None => None
      case Some((r1, vs)) =>
        match RenameChildren(r1, ts[1..])
        case None => None
        case Some((r2, ws)) => Some((r2, vs + ws))
  }

  /**
   A renaming pass from the starting state: nothing is on a stack before it,
   and every stack is empty again after the walk, with the counter moved on by
   the number of definitions in the tree.
   */
  lemma RenameFromStart(baseline: int, t: DomTree)
    ensures Issued(Start(baseline))
    ensures var res := RenameVars(Start(baseline), t).value;
      res.0.counter == baseline + DefCount(t) && forall x :: Stack(res.0, x) == []
  {
    var res := RenameVars(Start(baseline), t).value;
    assert SameStacks(res.0, Start(baseline));
  }

  /** The versions a renaming walk hands out are pairwise distinct. */
  lemma RenamedVersionsDistinct(r: Renaming, t: DomTree)
    ensures var vs := RenameVars(r, t).value.1;
      forall i, j :: 0 <= i < j < |vs| ==> vs[i] != vs[j]
  {
  }
}

=== FILE: string_literal.dfy ===
/**
 `children_string`: how a string token is written back.

 The magic constants `__FILE__`, `__CLASS__`, `__METHOD__` and `__FUNCTION__`
 are written as they are. A token marked as singly quoted is written between
 single quotes with only the single quote escaped. Every other string is
 written between double quotes through `echo_escaped`.
 */
module StringLiteral {
  import opened Text
  import opened Wrappers
  import opened Escape
  import Layout

  predicate IsMagicConstant(rep: Bytes)
  {
    rep == "__FILE__" || rep == "__CLASS__" || rep == "__METHOD__" || rep == "__FUNCTION__"
  }

  /** The number of single quotes in `s`. */
  function QuoteCount(s: Bytes): nat
    decreases |s|
  {
    if s == [] then 0 else (if s[0] == '\'' then 1 else 0) + QuoteCount(s[1..])
  }

  /**
   The body of a singly quoted literal: `\'` for a quote, all else as is.
   Every quote in the body stands behind a backslash, and the body is longer
   than the value by one byte per quote. A backslash of the value is copied
   as it is, so it can pair with the byte after it when PHP reads the body
   (see `BareQuote`).
   */
  function SingleQuotedBody(s: Bytes): (r: Bytes)
    ensures |r| == |s| + QuoteCount(s)
    ensures '\'' !in s ==> r == s
    ensures forall i :: 0 <= i < |r| && r[i] == '\'' ==> i > 0 && r[i - 1] == BACKSLASH
    decreases |s|
  {
    if s == [] then []
    else
      (if s[0] == '\'' then ['\\', '\''] else [s[0]]) + SingleQuotedBody(s[1..])
  }

  /**
   The inverse of `SingleQuotedBody`: `\'` stands for a quote, every other
   byte for itself.
   */
  function SingleQuotedValue(t: Bytes): Bytes
    decreases |t|
  {
    if t == [] then []
    else if |t| >= 2 && t[0] == BACKSLASH && t[1] == '\'' then ['\''] + SingleQuotedValue(t[2..])
    else [t[0]] + SingleQuotedValue(t[1..])
  }

  /**
   How PHP decodes the body of a singly quoted literal that closes at its
   end, that is, a body `t` with `BareQuote(t + ['\'']) == Some(|t|)`: `\'`
   is a quote, `\\` is one backslash, and a backslash before anything else
   stands for itself.
   */
  function PhpSingleQuotedValue(t: Bytes): Bytes
    decreases |t|
  {
    if t == [] then []
    else if |t| >= 2 && t[0] == BACKSLASH && (t[1] == '\'' || t[1] == BACKSLASH) then [t[1]] + PhpSingleQuotedValue(t[2..])
    else [t[0]] + PhpSingleQuotedValue(t[1..])
  }

  /** Escaping only the quote loses nothing: the body decodes back to `s`. */
  lemma {:induction false} SingleQuotedRoundTrip(s: Bytes)
    ensures SingleQuotedValue(SingleQuotedBody(s)) == s
    decreases |s|
  {
    if s != [] {
      var rest := SingleQuotedBody(s[1..]);
      SingleQuotedRoundTrip(s[1..]);
      if s[0] == '\'' {
        assert (['\\', '\''] + rest)[2..] == rest;
      } else {
        var t := [s[0]] + rest;
        assert t[1..] == rest;
        if s[0] == BACKSLASH && |t| >= 2 {
          // the byte after a backslash of the value is never a bare quote
          assert t[1] != '\'' by {
            assert s[1..] != [];
            if s[1] == '\'' { assert rest[0] == BACKSLASH; } else { assert rest[0] == s[1]; }
          }
        }
      }
      assert [s[0]] + s[1..] == s;
    }
  }

  /** PHP reads the body back as `s` whenever `s` holds no backslash. */
  lemma {:induction false} PhpReadsBackslashFreeBody(s: Bytes)
    requires BACKSLASH !in s
    ensures PhpSingleQuotedValue(SingleQuotedBody(s)) == s
    decreases |s|
  {
    if s != [] {
      var rest := SingleQuotedBody(s[1..]);
      PhpReadsBackslashFreeBody(s[1..]);
      if s[0] == '\'' {
        assert (['\\', '\''] + rest)[2..] == rest;
      } else {
        assert ([s[0]] + rest)[1..] == rest;
      }
      assert [s[0]] + s[1..] == s;
    }
  }

  /**
   A value ending in a backslash is written with that backslash right before
   the closing quote. Whether PHP then pairs it with that quote depends on
   the backslashes before it (`OneBackslashHidesClosingQuote`).
   */
  lemma {:induction false} TrailingBackslashMeetsClosingQuote(s: Bytes)
    requires s != [] && s[|s| - 1] == BACKSLASH
    ensures var body := SingleQuotedBody(s); body != [] && body[|body| - 1] == BACKSLASH
    decreases |s|
  {
    if |s| == 1 {
      assert s == [BACKSLASH];
      BackslashBody();
    } else {
      var rest := SingleQuotedBody(s[1..]);
      TrailingBackslashMeetsClosingQuote(s[1..]);
      var head: Bytes := if s[0] == '\'' then ['\\', '\''] else [s[0]];
      assert SingleQuotedBody(s) == head + rest;
    }
  }

  /** A lone backslash is written as it is. */
  lemma BackslashBody()
    ensures SingleQuotedBody([BACKSLASH]) == [BACKSLASH]
  {
    assert SingleQuotedBody([BACKSLASH]) == [BACKSLASH] + SingleQuotedBody([]);
  }

  /**
   Where PHP's scanner ends a singly quoted literal: the position of the
   first quote in `t` that is not the second byte of a `\\` or `\'` pair, or
   `None` if every quote is so paired.
   */
  function BareQuote(t: Bytes): (r: Option<nat>)
    ensures r.Some? ==> r.value < |t| && t[r.value] == '\''
    decreases |t|
  {
    if t == [] then None
    else if |t| >= 2 && t[0] == BACKSLASH && (t[1] == '\'' || t[1] == BACKSLASH) then
      match BareQuote(t[2..])
      case None => None
      case Some(i) => Some(i + 2)
    else if t[0] == '\'' then Some(0)
    else
      match BareQuote(t[1..])
      case None => None
      case Some(i) => Some(i + 1)
  }

  /** For a value without a backslash the body holds no bare quote. */
  lemma {:induction false} BackslashFreeBodyHasNoBareQuote(s: Bytes)
    requires BACKSLASH !in s
    ensures BareQuote(SingleQuotedBody(s)) == None
    decreases |s|
  {
    if s != [] {
      var rest := SingleQuotedBody(s[1..]);
      BackslashFreeBodyHasNoBareQuote(s[1..]);
      if s[0] == '\'' {
        assert (['\\', '\''] + rest)[2..] == rest;
      } else {
        assert ([s[0]] + rest)[1..] == rest;
      }
    }
  }

  /**
   For a value without a backslash, PHP's scanner ends the literal exactly
   at the quote echoed after the body.
   */
  lemma {:induction false} BackslashFreeLiteralClosesAtEnd(s: Bytes)
    requires BACKSLASH !in s
    ensures BareQuote(SingleQuotedBody(s) + ['\'']) == Some(|SingleQuotedBody(s)|)
    decreases |s|
  {
    if s == [] {
      assert SingleQuotedBody(s) + ['\''] == ['\''];
    } else {
      var rest := SingleQuotedBody(s[1..]);
      BackslashFreeLiteralClosesAtEnd(s[1..]);
      if s[0] == '\'' {
        assert SingleQuotedBody(s) + ['\''] == ['\\', '\''] + (rest + ['\'']);
        ScanPastEscapedQuote(rest + ['\''], |rest|);
      } else {
        assert SingleQuotedBody(s) + ['\''] == [s[0]] + (rest + ['\'']);
        ScanPastPlainByte(s[0], rest + ['\''], |rest|);
      }
    }
  }

  /** The scanner steps over an escaped quote. */
  lemma ScanPastEscapedQuote(u: Bytes, n: nat)
    requires BareQuote(u) == Some(n)
    ensures BareQuote(['\\', '\''] + u) == Some(n + 2)
  {
    assert (['\\', '\''] + u)[2..] == u;
  }

  /** The scanner steps over a byte that is neither a backslash nor a quote. */
  lemma ScanPastPlainByte(b: Byte, u: Bytes, n: nat)
    requires b != BACKSLASH && b != '\'' && BareQuote(u) == Some(n)
    ensures BareQuote([b] + u) == Some(n + 1)
  {
    assert ([b] + u)[1..] == u;
  }

  /**
   A backslash followed by a quote in the value, `\'`, is written as `\\'`:
   PHP pairs the two backslashes, and the quote after them ends the literal
   early.
   */
  lemma BackslashQuoteClosesEarly()
    ensures SingleQuotedBody(['\\', '\'']) == ['\\', '\\', '\'']
    ensures BareQuote(SingleQuotedBody(['\\', '\''])) == Some(2)
  {
    assert SingleQuotedBody(['\\', '\'']) == ['\\'] + SingleQuotedBody(['\'']);
    assert SingleQuotedBody(['\'']) == ['\\', '\''] + SingleQuotedBody([]);
    var t: Bytes := ['\\', '\\', '\''];
    assert t[2..] == ['\''];
  }

  /**
   The value `\` is written as `'\'`: PHP pairs the backslash with the
   closing quote, so the literal does not end there.
   */
  lemma OneBackslashHidesClosingQuote()
    ensures SingleQuotedBody([BACKSLASH]) + ['\''] == ['\\', '\'']
    ensures BareQuote(SingleQuotedBody([BACKSLASH]) + ['\'']) == None
  {
    assert SingleQuotedBody([BACKSLASH]) == [BACKSLASH] + SingleQuotedBody([]);
    var t: Bytes := ['\\', '\''];
    assert t[2..] == [];
  }

  /**
   The value `\\` is written as `'\\'`: PHP pairs the two backslashes and the
   closing quote ends the literal, which PHP reads as a single backslash.
   */
  lemma TwoBackslashesReadAsOne()
    ensures SingleQuotedBody([BACKSLASH, BACKSLASH]) == [BACKSLASH, BACKSLASH]
    ensures BareQuote(SingleQuotedBody([BACKSLASH, BACKSLASH])) == None
    ensures PhpSingleQuotedValue(SingleQuotedBody([BACKSLASH, BACKSLASH])) == [BACKSLASH]
  {
    var t: Bytes := [BACKSLASH, BACKSLASH];
    assert SingleQuotedBody(t) == [BACKSLASH] + SingleQuotedBody([BACKSLASH]);
    assert SingleQuotedBody([BACKSLASH]) == [BACKSLASH] + SingleQuotedBody([]);
    assert t[2..] == [];
  }

  lemma {:induction false} SingleQuotedBodyAppend(s: Bytes, t: Bytes)
    ensures SingleQuotedBody(s + t) == SingleQuotedBody(s) + SingleQuotedBody(t)
    decreases |s|
  {
    if s == [] {
      assert s + t == t;
    } else {
      assert (s + t)[1..] == s[1..] + t;
      SingleQuotedBodyAppend(s[1..], t);
    }
  }

  /** `q`, then `body`, then `q` again: the middle is `body`. */
  lemma Enclosed(q: Byte, body: Bytes)
    ensures var r := [q] + body + [q];
      |r| >= 2 && r[0] == q && r[|r| - 1] == q && r[1..|r| - 1] == body
  {
    var r := [q] + body + [q];
    assert r[1..|r| - 1] == body;
  }

  /** The singly quoted literal: quotes around a body that decodes back, with every inner quote escaped. */
  lemma SinglyQuotedLiteral(rep: Bytes)
    ensures var r := ['\''] + SingleQuotedBody(rep) + ['\''];
      && |r| >= 2 && r[0] == r[|r| - 1] == '\''
      && SingleQuotedValue(r[1..|r| - 1]) == rep
      && forall i :: 1 <= i < |r| - 1 && r[i] == '\'' ==> r[i - 1] == BACKSLASH
  {
    var body := SingleQuotedBody(rep);
    var r := ['\''] + body + ['\''];
    SingleQuotedRoundTrip(rep);
    Enclosed('\'', body);
    forall i | 1 <= i < |r| - 1 && r[i] == '\''
      ensures r[i - 1] == BACKSLASH
    {
      assert r[i] == body[i - 1];
      assert r[i - 1] == body[i - 2];
    }
  }

  /** The literal `children_string` writes, without the indentation. */
  function Literal(sign: CharSign, rep: Bytes, singlyQuoted: bool): (r: Bytes)
    ensures IsMagicConstant(rep) ==> r == rep
    ensures !IsMagicConstant(rep) ==> |r| >= 2 && r[0] == r[|r| - 1] == (if singlyQuoted then '\'' else '"')
    ensures !IsMagicConstant(rep) && singlyQuoted ==> SingleQuotedValue(r[1..|r| - 1]) == rep
    ensures !IsMagicConstant(rep) && singlyQuoted ==>
      forall i :: 1 <= i < |r| - 1 && r[i] == '\'' ==> r[i - 1] == BACKSLASH
    ensures !IsMagicConstant(rep) && !singlyQuoted ==> Unescape(r[1..|r| - 1]) == rep
    ensures !IsMagicConstant(rep) && !singlyQuoted ==> OnlyEmittedEscapes(r[1..|r| - 1])
  {
    if IsMagicConstant(rep) then rep
    else if singlyQuoted then
      SinglyQuotedLiteral(rep);
      ['\''] + SingleQuotedBody(rep) + ['\'']
    else
      EscapeRoundTrip(sign, rep);
      EscapeBytesEmitted(sign, rep);
      Enclosed('"', EscapeBytes(sign, rep));
      ['"'] + EscapeBytes(sign, rep) + ['"']
  }

  /**
   `children_string` as the sequence of output calls it makes. The opening
   quote is echoed, the body written directly or through `echo_escaped`, the
   closing quote echoed; the result is the line's indentation, if any,
   followed by the literal.
   */
  function ChildrenString(st: Layout.State, tab: Bytes, sign: CharSign, rep: Bytes, singlyQuoted: bool): (r: Layout.Step)
    ensures !r.next.atStartOfLine && r.next.indentLevel == st.indentLevel
    ensures r.text == Layout.OutputTabs(st, tab).text + Literal(sign, rep, singlyQuoted)
  {
    if IsMagicConstant(rep) then Layout.Echo(st, tab, rep)
    else if singlyQuoted then
      var open := Layout.Echo(st, tab, "'");
      var close := Layout.Echo(open.next, tab, "'");
      QuotedPieces(st, tab, "'", SingleQuotedBody(rep));
      Layout.Step(close.next, open.text + SingleQuotedBody(rep) + close.text)
    else
      var open := Layout.Echo(st, tab, "\"");
      var body := EchoEscaped(open.next, tab, sign, rep);
      var close := Layout.Echo(body.next, tab, "\"");
      assert body.text == EscapeBytes(sign, rep);
      QuotedPieces(st, tab, "\"", EscapeBytes(sign, rep));
      Layout.Step(close.next, open.text + body.text + close.text)
  }

  /** Quote, body, quote: the indentation comes before the opening quote only. */
  lemma QuotedPieces(st: Layout.State, tab: Bytes, quote: Bytes, body: Bytes)
    ensures var open := Layout.Echo(st, tab, quote);
      open.text + body + Layout.Echo(open.next, tab, quote).text
      == Layout.OutputTabs(st, tab).text + (quote + body + quote)
  {
    var tabs := Layout.OutputTabs(st, tab);
    var open := Layout.Echo(st, tab, quote);
    assert !open.next.atStartOfLine;
    assert (tabs.text + quote) + body + quote == tabs.text + (quote + body + quote);
  }
}

=== FILE: text.dfy ===
/**
 Bytes as the unparser writes them to its output stream.

 A C++ `std::string` holds bytes; a byte is modelled as a character whose
 code point is at most 255, so that string literals can be written directly.
 */
module Text {

  /** One byte of a `std::string` or of the output stream. */
  type Byte = c: char | c <= '\U{FF}'

  type Bytes = seq<Byte>

  /** What `endl` writes. */
  const NEWLINE: Byte := '\n'

  const BACKSLASH: Byte := '\\'

  /** `n` copies of `s`, back to back. */
  function Repeat(s: Bytes, n: nat): (r: Bytes)
    ensures |r| == n * |s|
    ensures forall i :: 0 <= i < |r| ==> r[i] in s
  {
    if n == 0 then [] else s + Repeat(s, n - 1)
  }

  /** Repetition splits at any count. */
  lemma {:induction false} RepeatAdd(s: Bytes, m: nat, n: nat)
    ensures Repeat(s, m + n) == Repeat(s, m) + Repeat(s, n)
  {
    if m == 0 {
      assert Repeat(s, 0) == [];
    } else {
      RepeatAdd(s, m - 1, n);
      assert Repeat(s, m + n) == s + Repeat(s, m - 1 + n);
    }
  }

  /** Copy `k` of `n` sits at offset `k * |s|`: the repetition is `n` whole copies of `s`. */
  lemma {:induction false} RepeatCopy(s: Bytes, n: nat, k: nat)
    requires k < n
    ensures k * |s| + |s| <= |Repeat(s, n)|
    ensures Repeat(s, n)[k * |s| .. k * |s| + |s|] == s
  {
    var rest := Repeat(s, n - 1);
    assert Repeat(s, n) == s + rest;
    if k > 0 {
      RepeatCopy(s, n - 1, k - 1);
      var at := (k - 1) * |s|;
      assert k * |s| == at + |s|;
      assert (s + rest)[at + |s| .. at + |s| + |s|] == rest[at .. at + |s|];
    }
  }

  /** Every copy of `s` in the repetition, at once. */
  lemma RepeatCopies(s: Bytes, n: nat)
    ensures forall k :: 0 <= k < n ==> k * |s| + |s| <= |Repeat(s, n)| && Repeat(s, n)[k * |s| .. k * |s| + |s|] == s
  {
    forall k | 0 <= k < n
      ensures k * |s| + |s| <= |Repeat(s, n)| && Repeat(s, n)[k * |s| .. k * |s| + |s|] == s
    {
      RepeatCopy(s, n, k);
    }
  }

  /** The pieces, written one after another. */
  function Concat(pieces: seq<Bytes>): Bytes
  {
    if pieces == [] then [] else pieces[0] + Concat(pieces[1..])
  }

  lemma {:induction false} ConcatAppend(a: seq<Bytes>, b: seq<Bytes>)
    ensures Concat(a + b) == Concat(a) + Concat(b)
  {
    if a == [] {
      assert a + b == b;
    } else {
      assert (a + b)[1..] == a[1..] + b;
      ConcatAppend(a[1..], b);
    }
  }

  /** `w` is a prefix of `t`. */
  predicate StartsWith(t: Bytes, w: Bytes)
  {
    |w| <= |t| && t[..|w|] == w
  }

  /** No two line breaks in a row anywhere in `out`: no blank line. */
  predicate NoBlankLine(out: Bytes)
  {
    forall i :: 0 <= i < |out| - 1 ==> !(out[i] == NEWLINE && out[i + 1] == NEWLINE)
  }
}

=== FILE: wrappers.dfy ===
/** The optional-value datatype used for reads that may find nothing. */
module Wrappers {

  /** `None` stands for the absent entry or the empty stack. */
  datatype Option<+T> = None | Some(value: T)
}
